=== FILE: README.md ===
# Feed parser sensor — selection pipeline model

A Dafny model of the multi-feed RSS sensor in
`custom_components/feedparser/sensor.py`. On every update the sensor resets a
title-keyed store. It then walks the configured feeds in order, and each
feed's parsed entries in order. For each entry it:

- derives a title, using `title` or, when that is empty, `description`;
- rejects empty titles and exact repeats;
- rejects near-duplicates whose best fuzzy score against the stored titles is
  above 90;
- enforces a per-feed cap on accepted entries;
- rejects titles that contain a lower-cased stop word;
- stores a normalised copy of the entry: fields filtered through the
  inclusion list, the exclusion list and the `parsed` rule, and the four date
  fields reformatted.

The sensor state is the number of stored titles.

Modules:

- `Text` (`text.dfy`): ASCII `lower()`, Python's substring test `w in s` with a
  positional reference definition, and the stop-word scan.
- `Entries` (`entries.dfy`): the entry as a field map, title derivation, the
  keep/drop rule and the field pass (`Normalize`), plus the field loop
  (`NormalizeFields`) that matches it.
- `Selection` (`selection.dfy`): the store, which keeps its titles in
  insertion order because the source's dictionary does. Also the per-entry
  decision, the folds over entries (`FeedPass`) and over feeds (`Run`,
  `Cycle`), and the imperative loops (`ConsiderEntry`, `FeedLoop`,
  `UpdateLoop`) proved equal to the folds.
- `CycleProperties` (`cycle_properties.dfy`): soundness, provenance,
  monotonicity, the per-feed cap, failed feeds, and feed precedence.
- `FeedSensor` (`sensor.dfy`): construction, update, state, idempotence.
- `Scenarios` (`scenarios.dfy`): concrete cycles that pin down the edge
  cases.

Foreign collaborators become parameters:

- the fuzzy matcher's best score is `Oracles.score`, a function from a title
  and the stored titles to a `Score` in 0..100;
- the date reformatter is `Oracles.reformat`, a function from a raw value and
  the date format to a string;
- `feedparser.parse` is the `parse` argument, which gives each feed location
  either `None` (a falsy result) or its sequence of entries.

Behaviour of the code that the model keeps:

- The similarity threshold is the constant 90, not a configuration value.
- A feed whose parse is falsy is skipped, and the rest of the cycle still
  runs.
- Looking up a missing `title` field raises `KeyError`. So does looking up a
  missing `description` when the title is empty. The raise ends the update:
  the store keeps what was accepted before the entry, the state keeps its old
  value, and a raise during construction means no sensor is created. The model
  returns `Raised(missing, partial store)` for this case.
- Titles are derived and checked against the store before the cap is checked.
  A title-less entry therefore raises even after its feed's cap is reached.
- The schema validates `limit_per_feed` with `positive_int`, which accepts 0, so the cap is a natural number.

## Model

| member | source | states |
|---|---|---|
| `Text.Lower` | custom_components/feedparser/sensor.py:95 | Lower-casing keeps the length, leaves no upper-case letter, keeps every other character, and maps each upper-case letter to its lower-case partner. |
| `Text.LowerAll` | custom_components/feedparser/sensor.py:61 | The configured stop words are lower-cased one by one, in order, so none of them has an upper-case letter left. |
| `Text.ContainsIffOccurs` | custom_components/feedparser/sensor.py:97 | The substring test used for stop words and for `parsed` holds exactly when the word occurs at some offset of the string. |
| `Text.AnyContains` | custom_components/feedparser/sensor.py:94-101 | A title is marked by the stop-word scan iff some configured word occurs in it. |
| `Text.AbsentCharNotContained` | custom_components/feedparser/sensor.py:106 | A word with a character the key lacks never occurs in it. Used to show `title` is not dropped by the `parsed` rule, and that a stop word is absent from a title lacking one of its letters. |
| `Entries.DeriveTitle` | custom_components/feedparser/sensor.py:81 | A title derives iff `title` is present and is non-empty or backed by a `description`. The title is `title` when non-empty and `description` otherwise. A failed lookup names the missing field: `title` when absent, otherwise `description`. |
| `Entries.Keep` | custom_components/feedparser/sensor.py:106 | A field is kept iff the inclusion list is empty or names it, `parsed` occurs at no offset of its name, and no exclusion names it. |
| `Entries.Normalize` | custom_components/feedparser/sensor.py:105-112 | The stored entry's fields are exactly the raw fields that pass the filter (inclusions empty or naming the field, no `parsed` in the name, not excluded). Date fields map to `reformat(raw value)`, and every other kept field keeps its raw value. |
| `Entries.NormalizeFields` | custom_components/feedparser/sensor.py:103-112 | The field-by-field loop that starts from an empty dictionary builds exactly the declarative normalised entry. |
| `Entries.NormalizedFieldsAllowed` | custom_components/feedparser/sensor.py:106 | With a non-empty inclusion list every stored field is included. No stored field name contains `parsed`, and no excluded field is stored. |
| `Entries.IncludedFieldsExactly` | custom_components/feedparser/sensor.py:105-107 | When the inclusions are not excluded and none contains `parsed`, the stored fields are the raw fields that the inclusion list names. |
| `Selection.Decide` | custom_components/feedparser/sensor.py:83-102 | A title is accepted iff it is non-empty, not already stored, not a near-duplicate, under the feed's cap and free of stop words. Near-duplicate means the store is non-empty and the score is strictly above 90. Exact repeats and near-duplicates are reported as such. |
| `Selection.Consider` | custom_components/feedparser/sensor.py:81-113 | One entry raises iff its title cannot be looked up. Otherwise the store changes iff the title is non-empty, new, free of stop words, scores at most 90 against a non-empty store, and the counter is under the cap. A change adds exactly that title, mapped to the normalised entry, and raises the counter by one; otherwise store and counter stay the same. |
| `Selection.FeedPass` | custom_components/feedparser/sensor.py:80-113 | A feed's entry loop raises iff some entry has no derivable title. The raise carries the field that the first such entry lacks. |
| `Selection.Run` | custom_components/feedparser/sensor.py:73-113 | The loop over feeds raises iff some successfully parsed feed holds an entry with no derivable title. |
| `Selection.Cycle` | custom_components/feedparser/sensor.py:71-113 | A cycle from the reset store raises iff some successfully parsed feed holds an entry with no derivable title. |
| `Selection.ScanStopWords` | custom_components/feedparser/sensor.py:93-100 | The loop over the stop words ends with `skip` set iff some stop word occurs in the lower-cased title. |
| `Selection.ConsiderEntry` | custom_components/feedparser/sensor.py:80-113 | The entry-loop body, with its early exits, has the same effect as the functional per-entry step. |
| `Selection.FeedLoop` | custom_components/feedparser/sensor.py:74-113 | The entry loop of one feed, with its counter starting at zero, computes the functional feed pass. |
| `Selection.UpdateLoop` | custom_components/feedparser/sensor.py:71-113 | The nested loops over feeds and entries, with the store reset first and a counter that restarts for each feed, compute the functional cycle. |
| `CycleProperties.DerivedTitleIsTitleOf` | custom_components/feedparser/sensor.py:81 | A title derives iff `title` is present and is either non-empty or backed by a `description`. The derived title is the entry's `title` or, when that is empty, its `description`. |
| `CycleProperties.ConsiderSound` | custom_components/feedparser/sensor.py:83-112 | One entry keeps the store sound. Sound means the titles are distinct and equal to the keys, every key is non-empty and free of stop words, no title scores above 90 against the titles stored before it, and every stored field passes the filter. |
| `CycleProperties.AddDissimilar` | custom_components/feedparser/sensor.py:86-90 | Appending a title that scores at most 90 against the stored titles keeps every title within the threshold against its predecessors. |
| `CycleProperties.AddSound` | custom_components/feedparser/sensor.py:86-103 | Storing an admissible fresh title that is not a near-duplicate, with a filtered entry, keeps the store sound. |
| `CycleProperties.FeedPassSound` | custom_components/feedparser/sensor.py:80-113 | A feed's entries keep the store sound, also when the feed raises part-way through. |
| `CycleProperties.RunSound` | custom_components/feedparser/sensor.py:73-113 | The feeds keep the store sound. |
| `CycleProperties.FeedPassExtends` | custom_components/feedparser/sensor.py:80-113 | Within a feed, stored entries are never removed or overwritten, and titles are only appended. |
| `CycleProperties.RunExtends` | custom_components/feedparser/sensor.py:73-113 | Across feeds, stored entries are never removed or overwritten, even when a later feed raises. |
| `CycleProperties.FeedPassCap` | custom_components/feedparser/sensor.py:92-113 | A feed entered with counter `c` adds at most `limit_per_feed - c` titles, and none once the counter reaches the cap. |
| `CycleProperties.RunCap` | custom_components/feedparser/sensor.py:73-113 | Each successfully parsed feed adds at most `limit_per_feed` titles. |
| `CycleProperties.RunSkipsFailedFeeds` | custom_components/feedparser/sensor.py:77-78 | A run over the feeds equals the run over only the successfully parsed ones. |
| `CycleProperties.FeedPassSourced` | custom_components/feedparser/sensor.py:80-112 | Every title a feed adds is the title or description of one of its entries and stores that entry's normalised copy. |
| `CycleProperties.RunSourced` | custom_components/feedparser/sensor.py:73-112 | Every title a run adds comes from an entry of a successfully parsed feed. |
| `CycleProperties.RunAppend` | custom_components/feedparser/sensor.py:73 | Feeds are processed in list order. A run over `a + b` is the run over `a` followed by the run over `b` from `a`'s store, and a raise in `a` ends the run. |
| `CycleProperties.CycleStoreSound` | custom_components/feedparser/sensor.py:71-112 | A cycle's store is sound, so in particular no stored title scores above 90 against the titles stored before it. Every key is a real title of a parsed entry and maps to that entry's normalised copy. |
| `CycleProperties.CycleCap` | custom_components/feedparser/sensor.py:73-115 | The number of stored titles is at most `limit_per_feed` times the number of successfully parsed feeds, and so at most `limit_per_feed` times the number of feeds. |
| `CycleProperties.EmptyStopWordStoresNothing` | custom_components/feedparser/sensor.py:94-98 | An empty stop word occurs in every lower-cased title, so a cycle configured with one stores nothing. |
| `CycleProperties.CyclePrefix` | custom_components/feedparser/sensor.py:73-90 | Earlier feeds take precedence. Appending feeds keeps everything the earlier ones stored, with their titles first, and a raise in the earlier feeds is the result of the longer cycle too. |
| `FeedSensor.Fetch` | custom_components/feedparser/sensor.py:73-75 | Gives each configured location's parse result, in configured order. |
| `FeedSensor.Update` | custom_components/feedparser/sensor.py:68-115 | An update keeps the configuration and replaces the store by the cycle's store, which is sound. When the cycle completes, the state is the store's size, at most `limit_per_feed` times the number of feeds. When a lookup raises, the state keeps its old value. |
| `FeedSensor.Init` | custom_components/feedparser/sensor.py:55-66 | Construction keeps the name, feeds, cap, date format and field lists, and lower-cases every stop word in order. It runs a first update, so a constructed sensor's store is the first cycle's store and its state is that store's size. Construction fails iff that first cycle raises. |
| `FeedSensor.UpdateResets` | custom_components/feedparser/sensor.py:71 | An update ignores the previous store: sensors with the same configuration get the same store, and the same state when the cycle completes. |
| `FeedSensor.UpdateIdempotent` | custom_components/feedparser/sensor.py:71-115 | Updating twice over the same parse results and the same reformatter gives the same sensor as updating once. |
| `FeedSensor.StopWordsIgnoreCase` | custom_components/feedparser/sensor.py:61 | No title a constructed sensor stores contains any configured stop word when both are lower-cased. |
| `Scenarios.NearDuplicateRejected` | custom_components/feedparser/sensor.py:86-90 | A re-worded headline from a second feed that scores 92 is dropped. |
| `Scenarios.ScoreAtThresholdAccepted` | custom_components/feedparser/sensor.py:88 | A score of exactly 90 does not reject. |
| `Scenarios.CapIsPerFeed` | custom_components/feedparser/sensor.py:74 | With a cap of one, two feeds still contribute one title each, because the counter restarts per feed. |
| `Scenarios.StopWordRejectsRegardlessOfCase` | custom_components/feedparser/sensor.py:61 | A stop word configured as `Advert` rejects `Big Advertisement Sale`, keeps `calm seas`, and the state is 1. |
| `Scenarios.MissingTitleRaises` | custom_components/feedparser/sensor.py:81 | An entry without `title` raises even after the cap is reached, and the entries stored before it remain. |
| `Scenarios.EmptyTitleUsesDescription` | custom_components/feedparser/sensor.py:81 | An empty title falls back to the description. |

## Left out

- custom_components/feedsparser/sensor.py is not part of this model. It is a
  second copy of the algorithm with threshold 75 (line 117). Its store is a
  list, so any entry that reaches the store step raises: storing indexes the
  list by title (line 132), and a stop-word title appends the undefined name
  `entry_value` (line 144). With `show_topn` 0, or only empty titles, it
  returns normally.
- The fuzzy matching algorithm (`process.extractOne` of fuzzywuzzy) is a
  foreign library. It is the parameter `score`, bounded to 0..100.
- Date parsing and formatting (`dateutil` parsing, dropping the time zone,
  `strftime`) involve calendars and time zones. They are the parameter
  `reformat`, and their parse exceptions are not modelled.
- FeedSensor.UpdateIdempotent: `parser.parse` is called without a default
  (custom_components/feedparser/sensor.py:110), so it fills the date parts a
  value lacks from the current date, and a value such as `10:30 AM` is stored
  differently on different days. `reformat` stands for the reformatter on one
  day, and the lemma covers two updates that see the same day.
- `feedparser.parse` does network and file I/O. It is the parameter `parse`.
  `FeedSensor.Fetch` takes every location's parse result up front, while the
  source parses each feed inside its loop and fetches no later feed once an
  entry has raised; since `parse` is a pure parameter here, the order of
  fetching is not modelled.
  How that library aliases field names (`description` for `summary`) and its
  non-string field values (nested dictionaries, lists, `struct_time`) are not
  modelled: every field value is an opaque string.
- `Text.Lower` lower-cases ASCII letters only. Python's `str.lower()` also
  maps non-ASCII letters.
- The order of fields inside a stored entry is not kept, because a stored
  entry is a Dafny map. The order of titles in the store is kept.
- Home Assistant plumbing is not modelled: the platform schema and its
  defaults, `setup_platform`, the entity properties (`name`, `state`, `icon`,
  `device_state_attributes`) and the `hass.data` storage location. These hold
  no logic beyond returning stored values.
- The logging lines are commented out in the source and have no effect.
- The tests and their fixtures (feed downloads, YAML configuration
  generation) do I/O, and they target a different sensor interface. That
  interface has a single feed, a top-N limit, images, local time and time
  windows, and its implementation is not part of this model.

=== FILE: cycle_properties.dfy ===
/**
 What an update cycle guarantees about the store it builds: every key is a
 real title of a parsed entry, the store only grows, the per-feed cap bounds
 its size, stop words never get in, failed feeds are invisible, and earlier
 feeds take precedence over later ones.
 */
module CycleProperties {
  import opened Wrappers
  import opened Text
  import opened Entries
  import opened Selection

  /**
   Every stored title is non-empty and stop-word free, no stored title is a
   near-duplicate of the titles stored before it, and every stored entry
   passed the field filter.
   */
  ghost predicate Sound(cfg: Settings, o: Oracles, s: Store)
  {
    && s.Valid()
    && Dissimilar(o, s.titles)
    && forall t :: t in s.entries ==>
      && t != ""
      && !AnyContains(Lower(t), cfg.stopWords)
      && (forall k :: k in s.entries[t] ==> Keep(k, cfg.inclusions, cfg.exclusions))
  }

  /** No title scores above the threshold against the titles stored before it. */
  ghost predicate Dissimilar(o: Oracles, titles: seq<string>)
  {
    forall i :: 0 < i < |titles| ==> o.score(titles[i], titles[..i]) <= SimilarityThreshold
  }

  /** `t` is the entry's `title`, or its `description` when the title is empty. */
  ghost predicate TitleOf(e: Entry, t: string)
  {
    && "title" in e
    && ((e["title"] != "" && e["title"] == t) || (e["title"] == "" && "description" in e && e["description"] == t))
  }

  /** Some entry of `es` carries title `t` and normalises to `v`. */
  ghost predicate FromEntries(cfg: Settings, o: Oracles, es: seq<Entry>, t: string, v: Entry)
  {
    exists j :: 0 <= j < |es| && TitleOf(es[j], t) && v == Stored(cfg, o, es[j])
  }

  /** Some successfully parsed feed has an entry with title `t` normalising to `v`. */
  ghost predicate FromFeeds(cfg: Settings, o: Oracles, feeds: seq<Option<seq<Entry>>>, t: string, v: Entry)
  {
    exists i :: 0 <= i < |feeds| && feeds[i].Some? && FromEntries(cfg, o, feeds[i].value, t, v)
  }

  /** The feeds whose parse succeeded, in order. */
  function Succeeded(feeds: seq<Option<seq<Entry>>>): (r: seq<Option<seq<Entry>>>)
    ensures |r| <= |feeds|
    ensures forall i :: 0 <= i < |r| ==> r[i].Some?
  {
    if feeds == [] then []
    else if feeds[0].Some? then [feeds[0]] + Succeeded(feeds[1..])
    else Succeeded(feeds[1..])
  }

  lemma MulMonotone(k: nat, m: nat, n: nat)
    requires m <= n
    ensures k * m <= k * n
  {
  }

  /** One feed adding at most `k` titles, followed by `m` feeds adding at most `k` each. */
  lemma CapStep(a: int, b: int, c: int, k: nat, m: nat)
    requires b <= a + k
    requires c <= b + k * m
    ensures c <= a + k * (m + 1)
  {
  }

  lemma ExtendsTransitive(a: Store, b: Store, c: Store)
    requires Extends(a, b) && Extends(b, c)
    ensures Extends(a, c)
  {
    assert c.titles[..|a.titles|] == c.titles[..|b.titles|][..|a.titles|];
  }

  /** A derived title really is the entry's title or, failing that, its description. */
  lemma DerivedTitleIsTitleOf(e: Entry)
    ensures DeriveTitle(e).Success? ==> TitleOf(e, DeriveTitle(e).value)
    ensures DeriveTitle(e).Success? <==>
      "title" in e && (e["title"] != "" || "description" in e)
  {
  }

  /** Appending a title that is not a near-duplicate of the stored ones keeps every title dissimilar to its predecessors. */
  lemma AddDissimilar(o: Oracles, s: Store, t: string, v: Entry)
    requires Dissimilar(o, s.titles)
    requires |s.titles| == 0 || o.score(t, s.titles) <= SimilarityThreshold
    ensures Dissimilar(o, s.Add(t, v).titles)
  {
    var n := s.Add(t, v);
    assert n.titles[..|s.titles|] == s.titles;
    forall i | 0 < i < |n.titles|
      ensures o.score(n.titles[i], n.titles[..i]) <= SimilarityThreshold
    {
      if i < |s.titles| {
        assert n.titles[..i] == s.titles[..i];
      }
    }
  }

  /** Adding a title that is not yet stored keeps the titles distinct and in step with the keys. */
  lemma AddValid(s: Store, t: string, v: Entry)
    requires s.Valid()
    requires t !in s.entries
    ensures s.Add(t, v).Valid()
  {
    var n := s.Add(t, v);
    assert t !in s.titles;
    assert forall i :: 0 <= i < |s.titles| ==> n.titles[i] == s.titles[i];
    assert forall x :: x in n.titles <==> x in s.titles || x == t;
    assert |n.entries| == |s.entries| + 1;
  }

  /** Adding a fresh admissible title with a filtered entry keeps the store sound. */
  lemma AddSound(cfg: Settings, o: Oracles, s: Store, t: string, v: Entry)
    requires Sound(cfg, o, s)
    requires Admissible(cfg, s, t)
    requires |s.entries| == 0 || o.score(t, s.titles) <= SimilarityThreshold
    requires forall k :: k in v ==> Keep(k, cfg.inclusions, cfg.exclusions)
    ensures Sound(cfg, o, s.Add(t, v))
  {
    var n := s.Add(t, v);
    AddValid(s, t, v);
    AddDissimilar(o, s, t, v);
    assert |s.titles| == |s.entries|;
    forall x | x in n.entries
      ensures x != "" && !AnyContains(Lower(x), cfg.stopWords)
      ensures forall k :: k in n.entries[x] ==> Keep(k, cfg.inclusions, cfg.exclusions)
    {
      if x != t {
        assert x in s.entries && n.entries[x] == s.entries[x];
      }
    }
  }

  /** Considering one entry keeps the store sound. */
  lemma ConsiderSound(cfg: Settings, o: Oracles, s: Store, count: nat, e: Entry)
    requires Sound(cfg, o, s)
    ensures Consider(cfg, o, s, count, e).Success? ==> Sound(cfg, o, Consider(cfg, o, s, count, e).value.store)
  {
    var r := Consider(cfg, o, s, count, e);
    if r.Success? && r.value != Step(s, count) {
      AddSound(cfg, o, s, DeriveTitle(e).value, Stored(cfg, o, e));
    }
  }

  /** A feed pass keeps the store sound. */
  lemma {:induction false} FeedPassSound(cfg: Settings, o: Oracles, s: Store, count: nat, es: seq<Entry>)
    requires Sound(cfg, o, s)
    ensures Sound(cfg, o, FeedPass(cfg, o, s, count, es).store)
    decreases |es|
  {
    if es != [] {
      ConsiderSound(cfg, o, s, count, es[0]);
      match Consider(cfg, o, s, count, es[0])
      case Failure(_) =>
      case Success(step) => FeedPassSound(cfg, o, step.store, step.count, es[1..]);
    }
  }

  /** A run over feeds keeps the store sound. */
  lemma {:induction false} RunSound(cfg: Settings, o: Oracles, s: Store, feeds: seq<Option<seq<Entry>>>)
    requires Sound(cfg, o, s)
    ensures Sound(cfg, o, Run(cfg, o, s, feeds).store)
    decreases |feeds|
  {
    if feeds != [] {
      match feeds[0]
      case None => RunSound(cfg, o, s, feeds[1..]);
      case Some(es) =>
        FeedPassSound(cfg, o, s, 0, es);
        match FeedPass(cfg, o, s, 0, es)
        case Raised(_, _) =>
        case Finished(next) => RunSound(cfg, o, next, feeds[1..]);
    }
  }

  /** A feed pass never removes or overwrites a stored entry and only appends titles. */
  lemma {:induction false} FeedPassExtends(cfg: Settings, o: Oracles, s: Store, count: nat, es: seq<Entry>)
    ensures Extends(s, FeedPass(cfg, o, s, count, es).store)
    decreases |es|
  {
    if es != [] {
      match Consider(cfg, o, s, count, es[0])
      case Failure(_) =>
      case Success(step) =>
        FeedPassExtends(cfg, o, step.store, step.count, es[1..]);
        ExtendsTransitive(s, step.store, FeedPass(cfg, o, step.store, step.count, es[1..]).store);
    }
  }

  /** A run never removes or overwrites a stored entry, also when it raises part-way. */
  lemma {:induction false} RunExtends(cfg: Settings, o: Oracles, s: Store, feeds: seq<Option<seq<Entry>>>)
    ensures Extends(s, Run(cfg, o, s, feeds).store)
    decreases |feeds|
  {
    if feeds != [] {
      match feeds[0]
      case None => RunExtends(cfg, o, s, feeds[1..]);
      case Some(es) =>
        FeedPassExtends(cfg, o, s, 0, es);
        match FeedPass(cfg, o, s, 0, es)
        case Raised(_, _) =>
        case Finished(next) =>
          RunExtends(cfg, o, next, feeds[1..]);
          ExtendsTransitive(s, next, Run(cfg, o, next, feeds[1..]).store);
    }
  }

  /**
   The per-feed cap: a feed pass entered with counter `count` adds at most
   `limitPerFeed - count` titles, and none once the counter has reached the cap.
   */
  lemma {:induction false} FeedPassCap(cfg: Settings, o: Oracles, s: Store, count: nat, es: seq<Entry>)
    ensures |FeedPass(cfg, o, s, count, es).store.titles|
      <= |s.titles| + (if count <= cfg.limitPerFeed then cfg.limitPerFeed - count else 0)
    decreases |es|
  {
    if es != [] {
      match Consider(cfg, o, s, count, es[0])
      case Failure(_) =>
      case Success(step) => FeedPassCap(cfg, o, step.store, step.count, es[1..]);
    }
  }

  /** Across a run, each successfully parsed feed adds at most `limitPerFeed` titles. */
  lemma {:induction false} RunCap(cfg: Settings, o: Oracles, s: Store, feeds: seq<Option<seq<Entry>>>)
    ensures |Run(cfg, o, s, feeds).store.titles| <= |s.titles| + cfg.limitPerFeed * |Succeeded(feeds)|
    decreases |feeds|
  {
    if feeds != [] {
      match feeds[0]
      case None => RunCap(cfg, o, s, feeds[1..]);
      case Some(es) =>
        FeedPassCap(cfg, o, s, 0, es);
        var m := |Succeeded(feeds[1..])|;
        assert |Succeeded(feeds)| == m + 1;
        match FeedPass(cfg, o, s, 0, es)
        case Raised(_, partial) =>
          CapStep(|s.titles|, |partial.titles|, |partial.titles|, cfg.limitPerFeed, m);
        case Finished(next) =>
          RunCap(cfg, o, next, feeds[1..]);
          CapStep(|s.titles|, |next.titles|, |Run(cfg, o, next, feeds[1..]).store.titles|, cfg.limitPerFeed, m);
    }
  }

  /** A feed whose parse failed contributes nothing: the run equals the run over the successful feeds. */
  lemma {:induction false} RunSkipsFailedFeeds(cfg: Settings, o: Oracles, s: Store, feeds: seq<Option<seq<Entry>>>)
    ensures Run(cfg, o, s, feeds) == Run(cfg, o, s, Succeeded(feeds))
    decreases |feeds|
  {
    if feeds != [] {
      var rest := Succeeded(feeds[1..]);
      match feeds[0]
      case None =>
        RunSkipsFailedFeeds(cfg, o, s, feeds[1..]);
      case Some(es) =>
        var f := [feeds[0]] + rest;
        assert f[0] == feeds[0] && f[1..] == rest;
        match FeedPass(cfg, o, s, 0, es)
        case Raised(_, _) =>
        case Finished(next) => RunSkipsFailedFeeds(cfg, o, next, feeds[1..]);
    }
  }

  /** Every title a feed pass adds comes from one of its entries, stored as that entry's normalised copy. */
  lemma {:induction false} FeedPassSourced(cfg: Settings, o: Oracles, s: Store, count: nat, es: seq<Entry>)
    ensures var r := FeedPass(cfg, o, s, count, es).store;
      forall t :: t in r.entries && t !in s.entries ==> FromEntries(cfg, o, es, t, r.entries[t])
    decreases |es|
  {
    if es != [] {
      var r := FeedPass(cfg, o, s, count, es).store;
      match Consider(cfg, o, s, count, es[0])
      case Failure(_) =>
      case Success(step) =>
        FeedPassSourced(cfg, o, step.store, step.count, es[1..]);
        FeedPassExtends(cfg, o, step.store, step.count, es[1..]);
        DerivedTitleIsTitleOf(es[0]);
        forall t | t in r.entries && t !in s.entries
          ensures FromEntries(cfg, o, es, t, r.entries[t])
        {
          if t in step.store.entries {
            assert TitleOf(es[0], t) && r.entries[t] == Stored(cfg, o, es[0]);
          } else {
            var j :| 0 <= j < |es[1..]| && TitleOf(es[1..][j], t) && r.entries[t] == Stored(cfg, o, es[1..][j]);
            assert es[1..][j] == es[j + 1];
          }
        }
    }
  }

  /** Every title a run adds comes from an entry of a successfully parsed feed. */
  lemma {:induction false} RunSourced(cfg: Settings, o: Oracles, s: Store, feeds: seq<Option<seq<Entry>>>)
    ensures var r := Run(cfg, o, s, feeds).store;
      forall t :: t in r.entries && t !in s.entries ==> FromFeeds(cfg, o, feeds, t, r.entries[t])
    decreases |feeds|
  {
    if feeds != [] {
      var r := Run(cfg, o, s, feeds).store;
      match feeds[0]
      case None =>
        RunSourced(cfg, o, s, feeds[1..]);
        forall t | t in r.entries && t !in s.entries
          ensures FromFeeds(cfg, o, feeds, t, r.entries[t])
        {
          var i :| 0 <= i < |feeds[1..]| && feeds[1..][i].Some? && FromEntries(cfg, o, feeds[1..][i].value, t, r.entries[t]);
          assert feeds[1..][i] == feeds[i + 1];
        }
      case Some(es) =>
        FeedPassSourced(cfg, o, s, 0, es);
        match FeedPass(cfg, o, s, 0, es)
        case Raised(_, partial) =>
          forall t | t in r.entries && t !in s.entries
            ensures FromFeeds(cfg, o, feeds, t, r.entries[t])
          {
            assert FromEntries(cfg, o, feeds[0].value, t, r.entries[t]);
          }
        case Finished(next) =>
          RunSourced(cfg, o, next, feeds[1..]);
          RunExtends(cfg, o, next, feeds[1..]);
          forall t | t in r.entries && t !in s.entries
            ensures FromFeeds(cfg, o, feeds, t, r.entries[t])
          {
            if t in next.entries {
              assert FromEntries(cfg, o, feeds[0].value, t, r.entries[t]);
            } else {
              var i :| 0 <= i < |feeds[1..]| && feeds[1..][i].Some? && FromEntries(cfg, o, feeds[1..][i].value, t, r.entries[t]);
              assert feeds[1..][i] == feeds[i + 1];
            }
          }
    }
  }

  /** Running over `a + b` is running over `a`, then over `b` from where `a` left off. */
  lemma {:induction false} RunAppend(cfg: Settings, o: Oracles, s: Store, a: seq<Option<seq<Entry>>>, b: seq<Option<seq<Entry>>>)
    ensures Run(cfg, o, s, a + b) ==
      match Run(cfg, o, s, a)
      case Raised(missing, partial) => Raised(missing, partial)
      case Finished(next) => Run(cfg, o, next, b)
    decreases |a|
  {
    if a == [] {
      assert a + b == b;
    } else {
      assert (a + b)[0] == a[0] && (a + b)[1..] == a[1..] + b;
      match a[0]
      case None => RunAppend(cfg, o, s, a[1..], b);
      case Some(es) =>
        match FeedPass(cfg, o, s, 0, es)
        case Raised(_, _) =>
        case Finished(next) => RunAppend(cfg, o, next, a[1..], b);
    }
  }

  /** The store a cycle builds: sound, and every key a title of a parsed entry stored as its normalised copy. */
  lemma CycleStoreSound(cfg: Settings, o: Oracles, feeds: seq<Option<seq<Entry>>>)
    ensures var r := Cycle(cfg, o, feeds).store;
      && Sound(cfg, o, r)
      && forall t :: t in r.entries ==> FromFeeds(cfg, o, feeds, t, r.entries[t])
  {
    RunSound(cfg, o, EmptyStore, feeds);
    RunSourced(cfg, o, EmptyStore, feeds);
  }

  /** The cycle's key count, which becomes the sensor state, is at most `limitPerFeed` per parsed feed. */
  lemma CycleCap(cfg: Settings, o: Oracles, feeds: seq<Option<seq<Entry>>>)
    ensures |Cycle(cfg, o, feeds).store.entries| <= cfg.limitPerFeed * |Succeeded(feeds)|
    ensures |Cycle(cfg, o, feeds).store.entries| <= cfg.limitPerFeed * |feeds|
  {
    RunSound(cfg, o, EmptyStore, feeds);
    RunCap(cfg, o, EmptyStore, feeds);
    MulMonotone(cfg.limitPerFeed, |Succeeded(feeds)|, |feeds|);
  }

  /**
   Earlier feeds take precedence: what a cycle over `a` stores is kept, with its
   titles first, by a cycle over `a + b`; and if the cycle over `a` raises, so
   does the cycle over `a + b`, with the same store.
   */
  lemma CyclePrefix(cfg: Settings, o: Oracles, a: seq<Option<seq<Entry>>>, b: seq<Option<seq<Entry>>>)
    ensures Cycle(cfg, o, a).Finished? ==> Extends(Cycle(cfg, o, a).store, Cycle(cfg, o, a + b).store)
    ensures Cycle(cfg, o, a).Raised? ==> Cycle(cfg, o, a + b) == Cycle(cfg, o, a)
  {
    RunAppend(cfg, o, EmptyStore, a, b);
    if Cycle(cfg, o, a).Finished? {
      RunExtends(cfg, o, Cycle(cfg, o, a).store, b);
    }
  }

  /** An empty stop word occurs in every title, so a cycle with one stores nothing. */
  lemma EmptyStopWordStoresNothing(cfg: Settings, o: Oracles, feeds: seq<Option<seq<Entry>>>)
    requires "" in cfg.stopWords
    ensures Cycle(cfg, o, feeds).store.entries == map[]
    ensures Cycle(cfg, o, feeds).store.titles == []
  {
    CycleStoreSound(cfg, o, feeds);
    var r := Cycle(cfg, o, feeds).store;
    forall t | t in r.entries
      ensures false
    {
      EmptyOccursEverywhere(Lower(t));
    }
  }
}

=== FILE: entries.dfy ===
/**
 One feed entry and the field pass the sensor applies to it before storing:
 title derivation and the keep/drop/reformat rule for each field.
 */
module Entries {
  import opened Wrappers
  import opened Text

  /** A parsed feed entry: field name to field value. */
  type Entry = map<string, string>

  /** The four date fields whose values are reformatted on the way in. */
  const DateFields: set<string> := {"published", "updated", "created", "expired"}

  /**
   `entry['title'] if entry['title'] else entry['description']`. Looking up an
   absent field raises `KeyError`; the failure carries the missing field name.
   */
  function DeriveTitle(e: Entry): (r: Result<string, string>)
    ensures r.Success? <==> "title" in e && (e["title"] != "" || "description" in e)
    ensures r.Success? && e["title"] != "" ==> r.value == e["title"]
    ensures r.Success? && e["title"] == "" ==> r.value == e["description"]
    ensures r.Failure? ==> r.error == (if "title" in e then "description" else "title")
  {
    if "title" !in e then Failure("title")
    else if e["title"] != "" then Success(e["title"])
    else if "description" !in e then Failure("description")
    else Success(e["description"])
  }

  /**
   The field filter: a field survives when the inclusion list is empty or names
   it, its name does not contain `parsed`, and the exclusion list does not name it.
   */
  predicate Keep(key: string, inclusions: seq<string>, exclusions: seq<string>): (b: bool)
    ensures b <==>
      && (inclusions == [] || exists i :: 0 <= i < |inclusions| && inclusions[i] == key)
      && (forall i :: !OccursAt(key, "parsed", i))
      && (forall i :: 0 <= i < |exclusions| ==> exclusions[i] != key)
  {
    ContainsIffOccurs(key, "parsed");
    (|inclusions| == 0 || key in inclusions) && !Contains(key, "parsed") && key !in exclusions
  }

  /** The stored value of a kept field: date fields go through `reformat`. */
  function FieldValue(key: string, raw: string, dateFormat: string,
                      reformat: (string, string) -> string): string
  {
    if key in DateFields then reformat(raw, dateFormat) else raw
  }

  /** The normalised copy of an entry that the sensor stores under its title. */
  function Normalize(e: Entry, inclusions: seq<string>, exclusions: seq<string>,
                     dateFormat: string, reformat: (string, string) -> string): (r: Entry)
    ensures forall k :: k in r ==> k in e && Keep(k, inclusions, exclusions)
    ensures forall k :: k in e && Keep(k, inclusions, exclusions) ==> k in r
    ensures forall k :: k in r && k !in DateFields ==> r[k] == e[k]
    ensures forall k :: k in r && k in DateFields ==> r[k] == reformat(e[k], dateFormat)
  {
    map k | k in e && Keep(k, inclusions, exclusions) :: FieldValue(k, e[k], dateFormat, reformat)
  }

  /**
   The loop of the source, field by field: starting from an empty map, every
   field of the raw entry is either skipped or written with its stored value.
   It produces exactly the declarative `Normalize`.
   */
  method NormalizeFields(e: Entry, inclusions: seq<string>, exclusions: seq<string>,
                         dateFormat: string, reformat: (string, string) -> string)
    returns (r: Entry)
    ensures r == Normalize(e, inclusions, exclusions, dateFormat, reformat)
  {
    r := map[];
    var pending := e.Keys;
    while pending != {}
      invariant pending <= e.Keys
      invariant forall k :: k in r <==> k in e && k !in pending && Keep(k, inclusions, exclusions)
      invariant forall k :: k in r ==> r[k] == FieldValue(k, e[k], dateFormat, reformat)
      decreases pending
    {
      var key :| key in pending;
      pending := pending - {key};
      if !Keep(key, inclusions, exclusions) {
        continue;
      }
      r := r[key := FieldValue(key, e[key], dateFormat, reformat)];
    }
  }

  /**
   With a non-empty inclusion list every stored field is one of the inclusions;
   no stored field name contains `parsed`; no excluded field is stored.
   */
  lemma NormalizedFieldsAllowed(e: Entry, inclusions: seq<string>, exclusions: seq<string>,
                                dateFormat: string, reformat: (string, string) -> string)
    ensures var r := Normalize(e, inclusions, exclusions, dateFormat, reformat);
      && (|inclusions| > 0 ==> forall k :: k in r ==> k in inclusions)
      && (forall k :: k in r ==> !Contains(k, "parsed") && k !in exclusions)
  {
  }

  /**
   When no inclusion contains `parsed` or is excluded, the stored fields are
   exactly the raw entry's fields that the inclusion list names.
   */
  lemma IncludedFieldsExactly(e: Entry, inclusions: seq<string>, exclusions: seq<string>,
                              dateFormat: string, reformat: (string, string) -> string)
    requires |inclusions| > 0
    requires forall i :: 0 <= i < |inclusions| ==>
      !Contains(inclusions[i], "parsed") && inclusions[i] !in exclusions
    ensures Normalize(e, inclusions, exclusions, dateFormat, reformat).Keys
      == e.Keys * (set k | k in inclusions)
  {
    var r := Normalize(e, inclusions, exclusions, dateFormat, reformat);
    forall k | k in e && k in inclusions
      ensures k in r
    {
      var i :| 0 <= i < |inclusions| && inclusions[i] == k;
    }
  }
}

=== FILE: scenarios.dfy ===
/**
 Concrete cycles over small hand-made feeds, pinning down the edge cases of
 the selection rules: the strict similarity threshold, the per-feed (not
 global) cap, case-insensitive stop words, the description fallback, and the
 `KeyError` a title-less entry raises even after the cap is reached.
 */
module Scenarios {
  import opened Wrappers
  import opened Text
  import opened Entries
  import opened Selection
  import opened FeedSensor

  function Titled(t: string): Entry
  {
    map["title" := t]
  }

  function KeepDate(value: string, format: string): string
  {
    value
  }

  function NoSimilarity(title: string, titles: seq<string>): Score
  {
    0
  }

  /** The matcher rates the re-worded headline 92 against what is stored. */
  function StormScore(title: string, titles: seq<string>): Score
  {
    if title == "Storm Hits Coast!!" then 92 else 0
  }

  /** The matcher rates the re-worded headline exactly at the threshold. */
  function BorderlineScore(title: string, titles: seq<string>): Score
  {
    if title == "Storm Hits Coast!!" then 90 else 0
  }

  const Plain := Settings(3, "%a, %b %d %I:%M %p", [], [], [])

  /** A near-identical headline from a second feed scoring 92 is dropped. */
  lemma NearDuplicateRejected()
    ensures Cycle(Plain, Oracles(StormScore, KeepDate),
                  [Some([Titled("Storm hits coast")]), Some([Titled("Storm Hits Coast!!")])]).store.titles
            == ["Storm hits coast"]
  {
  }

  /** A score of exactly 90 is not above the threshold: both headlines are kept. */
  lemma ScoreAtThresholdAccepted()
    ensures Cycle(Plain, Oracles(BorderlineScore, KeepDate),
                  [Some([Titled("Storm hits coast")]), Some([Titled("Storm Hits Coast!!")])]).store.titles
            == ["Storm hits coast", "Storm Hits Coast!!"]
  {
  }

  /** With a cap of one, each of two feeds still contributes one entry: the counter restarts per feed. */
  lemma CapIsPerFeed()
    ensures Cycle(Plain.(limitPerFeed := 1), Oracles(NoSimilarity, KeepDate),
                  [Some([Titled("a"), Titled("b")]), Some([Titled("c"), Titled("d")])]).store.titles
            == ["a", "c"]
  {
  }

  /** `Advert`, lower-cased at construction, is a stop word of `Big Advertisement Sale` but not of `calm seas`. */
  lemma AdvertMatchesIgnoringCase()
    ensures LowerAll(["Advert"]) == ["advert"]
    ensures AnyContains(Lower("Big Advertisement Sale"), ["advert"])
    ensures !AnyContains(Lower("calm seas"), ["advert"])
  {
    var raw := "Big Advertisement Sale";
    var t := Lower(raw);
    assert IsUpper(raw[4]) && t[4] == 'a';
    assert !IsUpper(raw[5]) && t[5] == 'd';
    assert !IsUpper(raw[6]) && t[6] == 'v';
    assert !IsUpper(raw[7]) && t[7] == 'e';
    assert !IsUpper(raw[8]) && t[8] == 'r';
    assert !IsUpper(raw[9]) && t[9] == 't';
    assert OccursAt(t, "advert", 4);
    ContainsIffOccurs(t, "advert");
    assert Lower("Advert") == "advert";
    assert LowerAll(["Advert"]) == [Lower("Advert")];
    assert Lower("calm seas") == "calm seas";
    AbsentCharNotContained("calm seas", "advert", 2);
  }

  /** Every feed location parses to the same two entries. */
  function AdvertFeed(url: string): Option<seq<Entry>>
  {
    Some([Titled("Big Advertisement Sale"), Titled("calm seas")])
  }

  const AdvertSettings := Settings(3, "%a", ["advert"], [], [])

  lemma AdvertSkipped()
    ensures Consider(AdvertSettings, Oracles(NoSimilarity, KeepDate), EmptyStore, 0,
                     Titled("Big Advertisement Sale")) == Success(Step(EmptyStore, 0))
  {
    AdvertMatchesIgnoringCase();
  }

  lemma CalmSeasKept()
    ensures Consider(AdvertSettings, Oracles(NoSimilarity, KeepDate), EmptyStore, 0, Titled("calm seas"))
            == Success(Step(EmptyStore.Add("calm seas", Titled("calm seas")), 1))
  {
    var e := Titled("calm seas");
    AdvertMatchesIgnoringCase();
    assert DeriveTitle(e) == Success("calm seas");
    assert Decide(AdvertSettings, NoSimilarity, EmptyStore, 0, "calm seas") == Accepted;
    AbsentCharNotContained("title", "parsed", 1);
    assert Stored(AdvertSettings, Oracles(NoSimilarity, KeepDate), e) == e;
  }

  /** A stop word configured as `Advert` rejects the title `Big Advertisement Sale`. */
  lemma StopWordRejectsRegardlessOfCase()
    ensures var s := Init(Config("news", ["feed"], 3, "%a", ["Advert"], [], []),
                          Oracles(NoSimilarity, KeepDate), AdvertFeed);
      s.Success? && s.value.store.titles == ["calm seas"] && s.value.state == Some(1)
  {
    var o := Oracles(NoSimilarity, KeepDate);
    var ad, calm := Titled("Big Advertisement Sale"), Titled("calm seas");
    var stored := EmptyStore.Add("calm seas", calm);
    AdvertSkipped();
    CalmSeasKept();
    assert [ad, calm][1..] == [calm];
    assert [calm][1..] == [];
    assert FeedPass(AdvertSettings, o, stored, 1, []) == Finished(stored);
    assert FeedPass(AdvertSettings, o, EmptyStore, 0, [calm]) == Finished(stored);
    assert FeedPass(AdvertSettings, o, EmptyStore, 0, [ad, calm]) == Finished(stored);
    assert Fetch(["feed"], AdvertFeed) == [Some([ad, calm])];
    var parsed := [Some([ad, calm])];
    assert parsed[1..] == [];
    assert Run(AdvertSettings, o, stored, []) == Finished(stored);
    assert Cycle(AdvertSettings, o, parsed) == Finished(stored);
    assert LowerAll(["Advert"]) == ["advert"] by {
      AdvertMatchesIgnoringCase();
    }
  }

  /**
   An entry with no `title` field raises even when the feed's cap is already
   used up; the entries stored before it stay in the store.
   */
  lemma MissingTitleRaises()
    ensures Cycle(Plain.(limitPerFeed := 1), Oracles(NoSimilarity, KeepDate),
                  [Some([Titled("a"), map["description" := "b"]])])
            == Raised("title", EmptyStore.Add("a", Titled("a")))
  {
    AbsentCharNotContained("title", "parsed", 1);
    assert Normalize(Titled("a"), [], [], Plain.dateFormat, KeepDate) == Titled("a");
  }

  /** An empty title falls back to the description. */
  lemma EmptyTitleUsesDescription()
    ensures Cycle(Plain, Oracles(NoSimilarity, KeepDate),
                  [Some([map["title" := "", "description" := "Tides"]])]).store.titles == ["Tides"]
  {
  }
}

=== FILE: selection.dfy ===
/**
 The per-cycle selection pipeline of the feed sensor: feeds in order, entries
 in order, each entry either rejected or stored under its title in a store
 that is both the duplicate index and the sensor's output.
 */
module Selection {
  import opened Wrappers
  import opened Text
  import opened Entries

  /** A candidate whose best similarity score is strictly above this is a near-duplicate. */
  const SimilarityThreshold := 90

  /** A similarity score as the fuzzy matcher reports it: a percentage. */
  type Score = x: int | 0 <= x <= 100

  /**
   The two foreign collaborators of a cycle: the fuzzy matcher's best score of a
   title against the stored titles (in insertion order), and the date
   reformatter applied to a raw date string with the configured format. The
   reformatter fills missing date parts from the current date, so one value of
   `reformat` stands for its behaviour on one day.
   */
  datatype Oracles = Oracles(score: (string, seq<string>) -> Score,
                             reformat: (string, string) -> string)

  /** The configuration the cycle reads. Stop words are already lower-cased. */
  datatype Settings = Settings(limitPerFeed: nat, dateFormat: string, stopWords: seq<string>,
                               inclusions: seq<string>, exclusions: seq<string>)

  /**
   The title-keyed store. `titles` records insertion order, which the source's
   dictionary keeps and hands to the fuzzy matcher.
   */
  datatype Store = Store(titles: seq<string>, entries: map<string, Entry>) {
    /** Titles are distinct and are exactly the keys of the map. */
    ghost predicate Valid()
    {
      && (forall i, j :: 0 <= i < j < |titles| ==> titles[i] != titles[j])
      && (forall t :: t in entries <==> t in titles)
      && |entries| == |titles|
    }

    function Add(title: string, e: Entry): Store
    {
      Store(titles + [title], entries[title := e])
    }
  }

  const EmptyStore := Store([], map[])

  /** Why a candidate title was rejected, or that it was accepted. */
  datatype Verdict = EmptyTitle | Repeated | Similar | OverLimit | StopWord | Accepted

  /** A title may be stored: non-empty, new, and free of every stop word. */
  predicate Admissible(cfg: Settings, store: Store, title: string)
  {
    title != "" && title !in store.entries && !AnyContains(Lower(title), cfg.stopWords)
  }

  /**
   The checks applied to a derived title, in source order: empty or exact
   repeat, near-duplicate, per-feed cap, stop words.
   */
  function Decide(cfg: Settings, score: (string, seq<string>) -> Score, store: Store,
                  count: nat, title: string): (v: Verdict)
    ensures v == Accepted <==>
      && Admissible(cfg, store, title)
      && (|store.entries| == 0 || score(title, store.titles) <= SimilarityThreshold)
      && count < cfg.limitPerFeed
    ensures v == Repeated <==> title != "" && title in store.entries
    ensures v == Similar <==>
      title != "" && title !in store.entries && |store.entries| > 0
      && score(title, store.titles) > SimilarityThreshold
  {
    if title == "" then EmptyTitle
    else if title in store.entries then Repeated
    else if |store.entries| > 0 && score(title, store.titles) > SimilarityThreshold then Similar
    else if count >= cfg.limitPerFeed then OverLimit
    else if |cfg.stopWords| > 0 && AnyContains(Lower(title), cfg.stopWords) then StopWord
    else Accepted
  }

  /** The normalised copy of a raw entry under the configured field pass. */
  function Stored(cfg: Settings, o: Oracles, e: Entry): Entry
  {
    Normalize(e, cfg.inclusions, cfg.exclusions, cfg.dateFormat, o.reformat)
  }

  /** The state carried from one entry of a feed to the next. */
  datatype Step = Step(store: Store, count: nat)

  /** `b` keeps everything `a` holds: `a`'s titles first, `a`'s entries untouched. */
  ghost predicate Extends(a: Store, b: Store)
  {
    && |a.titles| <= |b.titles|
    && b.titles[..|a.titles|] == a.titles
    && (forall t :: t in a.entries ==> t in b.entries && b.entries[t] == a.entries[t])
  }

  /**
   One entry: derive the title (which raises for a missing field), then either
   leave store and counter alone, or store the normalised entry under a fresh,
   admissible title and count it against the per-feed cap.
   */
  function Consider(cfg: Settings, o: Oracles, store: Store, count: nat, e: Entry): (r: Result<Step, string>)
    ensures r.Failure? <==> DeriveTitle(e).Failure?
    ensures r.Success? ==> Extends(store, r.value.store)
    ensures r.Success? ==>
      || r.value == Step(store, count)
      || (var title := DeriveTitle(e).value;
          && Admissible(cfg, store, title)
          && count < cfg.limitPerFeed
          && r.value == Step(store.Add(title, Stored(cfg, o, e)), count + 1))
    ensures r.Success? && DeriveTitle(e).value in store.entries ==> r.value == Step(store, count)
    ensures r.Success? ==>
      (r.value.store != store <==>
        && Admissible(cfg, store, DeriveTitle(e).value)
        && (|store.entries| == 0 || o.score(DeriveTitle(e).value, store.titles) <= SimilarityThreshold)
        && count < cfg.limitPerFeed)
  {
    match DeriveTitle(e)
    case Failure(missing) => Failure(missing)
    case Success(title) =>
      if Decide(cfg, o.score, store, count, title) == Accepted then
        Success(Step(store.Add(title, Stored(cfg, o, e)), count + 1))
      else
        Success(Step(store, count))
  }

  /** How a cycle ends: normally, or by a `KeyError` with the partially filled store. */
  datatype Outcome = Finished(store: Store) | Raised(missing: string, store: Store)

  /** Some entry of `es` has no derivable title: its lookup raises. */
  ghost predicate HasUnderivable(es: seq<Entry>)
  {
    exists j :: 0 <= j < |es| && DeriveTitle(es[j]).Failure?
  }

  /** Some successfully parsed feed holds an entry whose title lookup raises. */
  ghost predicate AnyUnderivable(feeds: seq<Option<seq<Entry>>>)
  {
    exists i :: 0 <= i < |feeds| && feeds[i].Some? && HasUnderivable(feeds[i].value)
  }

  /**
   The entries of one feed, in order, with the feed's acceptance counter.
   Every entry is looked at, whatever the counter, so the pass raises exactly
   when some entry has no derivable title, and then with the field that the
   first such entry lacks.
   */
  function FeedPass(cfg: Settings, o: Oracles, store: Store, count: nat, entries: seq<Entry>): (r: Outcome)
    ensures r.Raised? <==> HasUnderivable(entries)
    ensures r.Raised? ==> exists j ::
      && 0 <= j < |entries|
      && DeriveTitle(entries[j]) == Failure(r.missing)
      && (forall k :: 0 <= k < j ==> DeriveTitle(entries[k]).Success?)
    decreases |entries|
  {
    if entries == [] then Finished(store)
    else
      match Consider(cfg, o, store, count, entries[0])
      case Failure(missing) => Raised(missing, store)
      case Success(step) => FeedPass(cfg, o, step.store, step.count, entries[1..])
  }

  /**
   The feeds, in order; a failed parse (`None`) is skipped and the counter
   restarts per feed. The run raises exactly when a parsed feed holds an entry
   with no derivable title.
   */
  function Run(cfg: Settings, o: Oracles, store: Store, feeds: seq<Option<seq<Entry>>>): (r: Outcome)
    ensures r.Raised? <==> AnyUnderivable(feeds)
    decreases |feeds|
  {
    if feeds == [] then Finished(store)
    else
      match feeds[0]
      case None => Run(cfg, o, store, feeds[1..])
      case Some(entries) =>
        match FeedPass(cfg, o, store, 0, entries)
        case Raised(missing, partial) => Raised(missing, partial)
        case Finished(next) => Run(cfg, o, next, feeds[1..])
  }

  /**
   A whole update cycle: it starts from an empty store, and it completes
   unless some parsed entry has no derivable title.
   */
  function Cycle(cfg: Settings, o: Oracles, feeds: seq<Option<seq<Entry>>>): (r: Outcome)
    ensures r.Raised? <==> AnyUnderivable(feeds)
  {
    Run(cfg, o, EmptyStore, feeds)
  }

  /** The stop-word scan of the source: every word is tried, a match marks the title. */
  method ScanStopWords(lowerTitle: string, stopWords: seq<string>) returns (skip: bool)
    ensures skip == AnyContains(lowerTitle, stopWords)
  {
    skip := false;
    var k := 0;
    while k < |stopWords|
      invariant 0 <= k <= |stopWords|
      invariant skip <==> exists w :: 0 <= w < k && Contains(lowerTitle, stopWords[w])
    {
      if Contains(lowerTitle, stopWords[k]) {
        skip := true;
      }
      k := k + 1;
    }
  }

  /**
   The body of the entry loop as the source writes it, with its early
   `continue`s; a missing field raises. It agrees with `Consider`.
   */
  method ConsiderEntry(cfg: Settings, o: Oracles, store: Store, count: nat, e: Entry)
    returns (r: Result<Step, string>)
    ensures r == Consider(cfg, o, store, count, e)
  {
    if "title" !in e {
      return Failure("title");
    }
    var title: string;
    if e["title"] != "" {
      title := e["title"];
    } else {
      if "description" !in e {
        return Failure("description");
      }
      title := e["description"];
    }
    if title == "" || title in store.entries {
      return Success(Step(store, count));
    }
    if |store.entries| > 0 {
      var highest := o.score(title, store.titles);
      if highest > SimilarityThreshold {
        return Success(Step(store, count));
      }
    }
    if count < cfg.limitPerFeed {
      var skip := false;
      if |cfg.stopWords| > 0 {
        skip := ScanStopWords(Lower(title), cfg.stopWords);
      }
      if !skip {
        var fields := NormalizeFields(e, cfg.inclusions, cfg.exclusions, cfg.dateFormat, o.reformat);
        return Success(Step(store.Add(title, fields), count + 1));
      }
    }
    return Success(Step(store, count));
  }

  /**
   The entry loop of one feed as the source writes it: the counter starts at
   zero and a missing title field ends the loop by raising. It computes the
   functional `FeedPass`.
   */
  method FeedLoop(cfg: Settings, o: Oracles, start: Store, entries: seq<Entry>) returns (outcome: Outcome)
    ensures outcome == FeedPass(cfg, o, start, 0, entries)
  {
    var store := start;
    var count: nat := 0;
    var j := 0;
    while j < |entries|
      invariant 0 <= j <= |entries|
      invariant FeedPass(cfg, o, start, 0, entries) == FeedPass(cfg, o, store, count, entries[j..])
    {
      assert entries[j..][0] == entries[j] && entries[j..][1..] == entries[j + 1..];
      var step := ConsiderEntry(cfg, o, store, count, entries[j]);
      if step.Failure? {
        return Raised(step.error, store);
      }
      store, count := step.value.store, step.value.count;
      j := j + 1;
    }
    outcome := Finished(store);
  }

  /**
   The update loop as the source writes it: the store is reset, then the
   feeds are walked in order, a failed parse is skipped, and a raise in a
   feed ends the update. It computes exactly the functional `Cycle`.
   */
  method UpdateLoop(cfg: Settings, o: Oracles, feeds: seq<Option<seq<Entry>>>) returns (outcome: Outcome)
    ensures outcome == Cycle(cfg, o, feeds)
  {
    var store := EmptyStore;
    var i := 0;
    while i < |feeds|
      invariant 0 <= i <= |feeds|
      invariant Run(cfg, o, store, feeds[i..]) == Cycle(cfg, o, feeds)
    {
      assert feeds[i..][0] == feeds[i] && feeds[i..][1..] == feeds[i + 1..];
      if feeds[i].None? {
        i := i + 1;
        continue;
      }
      var pass := FeedLoop(cfg, o, store, feeds[i].value);
      if pass.Raised? {
        return pass;
      }
      store := pass.store;
      i := i + 1;
    }
    outcome := Finished(store);
  }
}

=== FILE: sensor.dfy ===
/**
 The sensor object around the cycle: construction lower-cases the stop words
 and runs a first update; every update resets the store, rebuilds it from the
 feeds, and sets the state to the number of stored titles.
 */
module FeedSensor {
  import opened Wrappers
  import opened Text
  import opened Entries
  import opened Selection
  import opened CycleProperties

  /** The validated platform configuration. */
  datatype Config = Config(name: string, feeds: seq<string>, limitPerFeed: nat, dateFormat: string,
                           stopWords: seq<string>, inclusions: seq<string>, exclusions: seq<string>)

  /**
   A sensor: its name, feed locations and settings, the store exposed as its
   attributes, and its state (`None` until an update completes).
   */
  datatype Sensor = Sensor(name: string, feeds: seq<string>, settings: Settings,
                           store: Store, state: Option<nat>)

  /** The parse result of each configured feed location, in configured order. */
  function Fetch(feeds: seq<string>, parse: string -> Option<seq<Entry>>): (r: seq<Option<seq<Entry>>>)
    ensures |r| == |feeds|
    ensures forall i :: 0 <= i < |feeds| ==> r[i] == parse(feeds[i])
  {
    seq(|feeds|, i requires 0 <= i < |feeds| => parse(feeds[i]))
  }

  /**
   One update. The store is replaced by the one the cycle builds; the state
   becomes the store's size only when the cycle completes, since a `KeyError`
   escapes before the state is assigned and leaves the partial store in place.
   */
  function Update(s: Sensor, o: Oracles, parse: string -> Option<seq<Entry>>): (r: Sensor)
    ensures r.name == s.name && r.feeds == s.feeds && r.settings == s.settings
    ensures r.store == Cycle(s.settings, o, Fetch(s.feeds, parse)).store
    ensures Cycle(s.settings, o, Fetch(s.feeds, parse)).Finished? ==> r.state == Some(|r.store.entries|)
    ensures Cycle(s.settings, o, Fetch(s.feeds, parse)).Raised? ==> r.state == s.state
    ensures Sound(s.settings, o, r.store)
    ensures Cycle(s.settings, o, Fetch(s.feeds, parse)).Finished? ==>
      r.state.value <= s.settings.limitPerFeed * |s.feeds|
  {
    var parsed := Fetch(s.feeds, parse);
    CycleStoreSound(s.settings, o, parsed);
    CycleCap(s.settings, o, parsed);
    match Cycle(s.settings, o, parsed)
    case Finished(store) => s.(store := store, state := Some(|store.entries|))
    case Raised(_, partial) => s.(store := partial)
  }

  /**
   Construction: the stop words are lower-cased once, then a first update runs.
   A `KeyError` in that update escapes the constructor, so no sensor is made.
   */
  function Init(config: Config, o: Oracles, parse: string -> Option<seq<Entry>>): (r: Result<Sensor, string>)
    ensures r.Success? ==> r.value.name == config.name && r.value.feeds == config.feeds
    ensures r.Success? ==>
      r.value.settings == Settings(config.limitPerFeed, config.dateFormat, LowerAll(config.stopWords),
                                   config.inclusions, config.exclusions)
    ensures r.Success? ==> r.value.store == Cycle(r.value.settings, o, Fetch(config.feeds, parse)).store
    ensures r.Success? ==> r.value.state == Some(|r.value.store.entries|)
    ensures r.Failure? <==>
      Cycle(Settings(config.limitPerFeed, config.dateFormat, LowerAll(config.stopWords),
                     config.inclusions, config.exclusions), o, Fetch(config.feeds, parse)).Raised?
  {
    var settings := Settings(config.limitPerFeed, config.dateFormat, LowerAll(config.stopWords),
                             config.inclusions, config.exclusions);
    var initial := Sensor(config.name, config.feeds, settings, EmptyStore, None);
    match Cycle(settings, o, Fetch(config.feeds, parse))
    case Raised(missing, _) => Failure(missing)
    case Finished(_) => Success(Update(initial, o, parse))
  }

  /**
   An update does not look at the previous store: two sensors with the same
   configuration end up with the same store, and with the same state whenever
   the cycle completes.
   */
  lemma UpdateResets(s1: Sensor, s2: Sensor, o: Oracles, parse: string -> Option<seq<Entry>>)
    requires s1.feeds == s2.feeds && s1.settings == s2.settings
    ensures Update(s1, o, parse).store == Update(s2, o, parse).store
    ensures Cycle(s1.settings, o, Fetch(s1.feeds, parse)).Finished? ==>
      Update(s1, o, parse).state == Update(s2, o, parse).state
  {
  }

  /** Updating twice over the same parse results gives the same sensor as updating once. */
  lemma UpdateIdempotent(s: Sensor, o: Oracles, parse: string -> Option<seq<Entry>>)
    ensures Update(Update(s, o, parse), o, parse) == Update(s, o, parse)
  {
  }

  /**
   Stop words match case-insensitively: no title a constructed sensor stores
   contains, ignoring letter case, any configured stop word.
   */
  lemma StopWordsIgnoreCase(config: Config, o: Oracles, parse: string -> Option<seq<Entry>>)
    ensures Init(config, o, parse).Success? ==>
      var s := Init(config, o, parse).value;
      forall t, i :: t in s.store.entries && 0 <= i < |config.stopWords| ==>
        !Contains(Lower(t), Lower(config.stopWords[i]))
  {
  }
}

=== FILE: text.dfy ===
/**
 Text primitives the feed sensor relies on: Python's `str.lower()` (restricted
 to ASCII letters) and the substring operator `w in s`.
 */
module Text {

  predicate IsUpper(c: char)
  {
    'A' <= c <= 'Z'
  }

  /** Lower-cases one ASCII letter and leaves every other character alone. */
  function LowerChar(c: char): char
  {
    if IsUpper(c) then (c as int + 32) as char else c
  }

  /** `s.lower()`: same length, no upper-case letter left, other characters kept. */
  function Lower(s: string): (r: string)
    ensures |r| == |s|
    ensures forall i :: 0 <= i < |r| ==> !IsUpper(r[i])
    ensures forall i :: 0 <= i < |s| && !IsUpper(s[i]) ==> r[i] == s[i]
    ensures forall i :: 0 <= i < |s| && IsUpper(s[i]) ==> r[i] as int == s[i] as int + 32
  {
    seq(|s|, i requires 0 <= i < |s| => LowerChar(s[i]))
  }

  predicate IsPrefix(p: string, s: string)
  {
    |p| <= |s| && s[..|p|] == p
  }

  /** Python's `w in s`: `w` occurs somewhere in `s` as a contiguous block. */
  predicate Contains(s: string, w: string)
    decreases |s|
  {
    IsPrefix(w, s) || (|s| > 0 && Contains(s[1..], w))
  }

  /** Reference definition of an occurrence of `w` in `s` at offset `i`. */
  ghost predicate OccursAt(s: string, w: string, i: int)
  {
    0 <= i && i + |w| <= |s| && s[i..i + |w|] == w
  }

  /** The recursive substring test agrees with the positional definition. */
  lemma {:induction false} ContainsIffOccurs(s: string, w: string)
    ensures Contains(s, w) <==> exists i :: OccursAt(s, w, i)
    decreases |s|
  {
    if Contains(s, w) {
      if IsPrefix(w, s) {
        assert OccursAt(s, w, 0);
      } else {
        ContainsIffOccurs(s[1..], w);
        var i :| OccursAt(s[1..], w, i);
        assert s[1..][i..i + |w|] == s[i + 1..i + 1 + |w|];
        assert OccursAt(s, w, i + 1);
      }
    }
    if exists i :: OccursAt(s, w, i) {
      var i :| OccursAt(s, w, i);
      if i == 0 {
        assert IsPrefix(w, s);
      } else {
        assert s[1..][i - 1..i - 1 + |w|] == s[i..i + |w|];
        assert OccursAt(s[1..], w, i - 1);
        ContainsIffOccurs(s[1..], w);
      }
    }
  }

  /** A word with a character that `s` lacks does not occur in `s`. */
  lemma AbsentCharNotContained(s: string, w: string, k: int)
    requires 0 <= k < |w| && w[k] !in s
    ensures !Contains(s, w)
  {
    forall i | 0 <= i && i + |w| <= |s|
      ensures !OccursAt(s, w, i)
    {
      assert s[i..i + |w|][k] == s[i + k];
    }
    ContainsIffOccurs(s, w);
  }

  /** The empty string occurs in every string, as it does in Python's `"" in s`. */
  lemma EmptyOccursEverywhere(s: string)
    ensures Contains(s, "")
  {
  }

  /**
   True when some word of `words` occurs in `t`; the stop-word scan of the
   sensor, which never stops early but only records whether a word matched.
   */
  function AnyContains(t: string, words: seq<string>): (r: bool)
    ensures r <==> exists i :: 0 <= i < |words| && Contains(t, words[i])
  {
    if words == [] then false
    else Contains(t, words[0]) || AnyContains(t, words[1..])
  }

  /** Lower-cases every word, keeping order: the constructor's `map(lower, ...)`. */
  function LowerAll(words: seq<string>): (r: seq<string>)
    ensures |r| == |words|
    ensures forall i :: 0 <= i < |r| ==> r[i] == Lower(words[i])
    ensures forall i, j :: 0 <= i < |r| && 0 <= j < |r[i]| ==> !IsUpper(r[i][j])
  {
    seq(|words|, i requires 0 <= i < |words| => Lower(words[i]))
  }
}

=== FILE: wrappers.dfy ===
/** Optional values and value-or-error results, shared by the feed sensor model. */
module Wrappers {

  /** An optional value: Python's falsy/`None` results and absent map keys. */
  datatype Option<+T> = None | Some(value: T)

  /** A value or an error; used for the `KeyError` a missing entry field raises. */
  datatype Result<+R, +E> = Success(value: R) | Failure(error: E)
}
